=== FILE: README.md ===
# Pomodoro phase timer — a Dafny model

This project models the engine of a browser Pomodoro timer (`script.js`). The
engine runs work phases, short breaks and long breaks. It counts completed work
sessions and completed work+break cycles. It signals an alarm when a phase runs
out, and it can start the next phase by itself after a short delay.

In the model, the module-level mutable state of `script.js` is an immutable
record, `Engine.Timer`. Every command is a pure function from one timer to the
next. The wall clock is an explicit integer argument `now`, in milliseconds.
Remaining time is always derived from an absolute deadline. It is never counted
down tick by tick.

Modules:

- `Phases` (`phases.dfy`) holds the three phases, the constants (25/5/15
  minutes, a long break every 4th session, the accepted setting ranges), the
  next-phase rule and the phase durations.
- `ClockFormat` (`clock_format.dfy`) renders a remaining time as `MM:SS`. The
  time is rounded up to whole seconds, with decimal digits and zero padding.
- `Engine` (`engine.dfy`) holds the timer record, the validity invariant, and
  start, pause, tick, phase completion, deferred auto-start, reset, skip, the
  two mode buttons, set-cycles, apply-settings and the progress ratio.
- `EngineProperties` (`engine_properties.dfy`) relates several operations:
  start/pause pairs, missed ticks, skip versus natural completion, and the
  auto-start guard. It also plays through the one-minute scenarios end to end.
- `Session` (`session.dfy`) runs the engine over arbitrary sequences of
  environment events. A `World` record holds the timer, the pending
  auto-starts and the log of emitted alarms. Validity holds for every reachable
  timer.
- `CorrectedPause` (`corrected_pause.dfy`) is the pause defect described under
  Findings, with its correction.

The model follows what the code does, including behaviour a user would not
expect:

- Pausing keeps the deadline (`script.js:201-214`). Starting computes a new
  deadline only when there is none (`script.js:191-193`). So a paused timer
  still has a deadline, and resuming reuses it. A user who pauses a one-minute
  work phase after 10 s sees 00:50 on the paused clock, yet after a one-minute
  pause the first tick following the resume completes the phase at once.
- The deferred auto-start only checks that the timer is idle when it fires
  (`script.js:247-251`, `265-269`). Nothing cancels it. A start followed by a
  pause, or a reset, inside the 750 ms delay does not stop it: the timer runs
  again, although the user last asked it to stand still.
- The work-mode and rest-mode buttons (`script.js:108-124`) switch phase without
  touching the counters. The rest button always picks a short break.

## Model

| member | source | states |
|---|---|---|
| Phases.NextPhase | script.js:274-281 | After a break comes work. After work comes a break, and it is a long break exactly when the completed-session count is positive and divisible by 4 |
| Phases.LongBreakEveryFourthSession | script.js:274-281 | Work leads to a long break iff the session count is 4·k for some k ≥ 1 |
| Phases.MinutesToMs | script.js:366-368 | Minute-to-millisecond conversion is exact: the result is a whole number of minutes, and dividing it by 60000 gives the input back |
| Phases.PhaseDurationMs | script.js:332-336 | A work phase lasts the work minutes, a short break the rest minutes and a long break 15 minutes. With settings in range, every phase lasts between 1 and 120 minutes |
| ClockFormat.DecimalString | script.js:361-362 | Decimal notation of a natural number: non-empty digits that read back as the number, with no leading zero except for 0 |
| ClockFormat.PadStart | script.js:361-362 | Left padding: the input stays the suffix, the length becomes the width if it was shorter, and only fill characters are added |
| ClockFormat.ZeroPaddingKeepsValue | script.js:361-362 | Padding digits with '0' keeps them digits and keeps their value |
| ClockFormat.TotalSeconds | script.js:358 | The seconds shown are the milliseconds divided by 1000 and rounded up (the least t with 1000·t ≥ ms) |
| ClockFormat.Field | script.js:361-362 | A clock field has at least two digits, exactly two below 100, a leading zero only for numbers below 10, and reads back as its number |
| ClockFormat.ClockFace | script.js:359-363 | For t whole seconds the face is `minutes:seconds`. Minutes read as t div 60, with exactly two digits below 100 minutes and a leading zero only below 10. Seconds have two digits and read as t mod 60 |
| ClockFormat.FormatClock | script.js:357-364 | For ms ≥ 0 the face shows ⌈ms/1000⌉ seconds as minutes and seconds, in the sense of ClockFace: `MM:SS` below 100 minutes, zero-padded minutes only below 10 |
| ClockFormat.ShowsAtMostOneTime | script.js:359-363 | A clock face determines the number of seconds it shows |
| ClockFormat.SameClockIffSameSecond | script.js:357-364 | Two times show the same face exactly when they round up to the same whole second |
| Engine.TimeLeft | script.js:208 | Time left until a deadline is max(0, deadline − now): never negative, never below deadline − now, and equal to one of the two |
| Engine.Init | script.js:31-39 | The starting timer: idle work phase, full work time, no deadline, zero counters, target 4, and the loaded work and rest minutes. It is valid exactly when those minutes are in range |
| Engine.Default | script.js:34-39 | Without saved settings the timer is valid: an idle work phase with 25 minutes left, no deadline, zero counters, no alarm, target 4, work 25 and rest 5 minutes |
| Engine.ResetPhaseTime | script.js:283-293 | Restores the current phase's full duration and drops the deadline, changing nothing else |
| Engine.Start | script.js:185-199 | Start is a no-op while running. Otherwise the timer runs towards a deadline: now + remaining when there was none, or the existing deadline reused unchanged. Nothing else changes and validity is kept |
| Engine.Pause | script.js:201-214 | Pause is a no-op when idle. Otherwise the timer stops with remaining = max(0, deadline − now). The deadline is kept and nothing else changes |
| Engine.StartPause | script.js:59-65 | The start/pause button flips running. Pausing only freezes the remaining time at max(0, deadline − now) and keeps the deadline. Starting keeps everything else, reuses an existing deadline and otherwise sets now + remaining. Validity is kept |
| Engine.HandlePhaseComplete | script.js:235-272 | Finishing work adds one session and emits the work alarm. The break chosen uses the incremented count, and an auto-start is requested. Finishing a break adds one cycle, returns to work and emits the rest alarm. An auto-start is requested iff cycles < target. Either way the new phase has its full time and no deadline |
| Engine.Tick | script.js:216-233 | A tick does nothing unless the timer is counting. Before the deadline the remaining time becomes deadline − now. At or after the deadline the result is exactly phase completion of the timer stopped at zero with no deadline: one alarm, which matches the counter that grew. Validity is kept |
| Engine.AutoStartFire | script.js:247-251 | The deferred start does nothing if the timer runs. Otherwise it changes only running and the deadline: an existing deadline is reused, and without one it is the fire instant plus the remaining time |
| Engine.Reset | script.js:67-81 | Reset pauses, zeroes both counters, silences the alarm and restores the current phase's full time with no deadline. It keeps phase and settings |
| Engine.Skip | script.js:83-88 | Skip pauses and advances using the un-incremented session count. The new phase gets its full time and no deadline; the counters, the target and the work and rest minutes are unchanged |
| Engine.WorkMode | script.js:108-115 | The work button pauses and switches to a fresh work phase with its full configured duration, keeping the counters, target and minute settings |
| Engine.RestMode | script.js:117-124 | The rest button pauses and switches to a fresh short break with its full configured duration, keeping the counters, target and minute settings |
| Engine.SetCycles | script.js:126-144 | A target outside 1–20, or one that is not a number, changes nothing. A target in range is stored and the reset sequence runs |
| Engine.ApplySettings | script.js:146-176 | Work outside 1–120 or rest outside 1–60 (or a non-number) changes nothing. Valid durations become exactly the configured ones and the reset sequence runs |
| Engine.AlarmFinished | script.js:427-432 | When the tone sequence ends, the alarm marker clears and nothing else changes |
| Engine.Progress | script.js:338-342 | Progress lies in [0, 1]. With the remaining time between 0 and the duration it is exactly 1 − remaining/duration; it is 0 at or above the full time and 1 at or below zero |
| EngineProperties.StartThenPauseKeepsRemaining | script.js:185-214 | Start then pause at the same instant, from no deadline, leaves the remaining time unchanged |
| EngineProperties.MissedTicksDoNotDrift | script.js:216-233 | A tick that does not expire the phase followed by a later tick equals the later tick alone |
| EngineProperties.StartKeepsInSync | script.js:191-193 | After a start, the remaining time is at least the time left until the deadline |
| EngineProperties.TickNeverIncreasesRemaining | script.js:216-224 | While running in sync, a later tick never raises the remaining time or lowers the progress, and keeps the phase |
| EngineProperties.ProgressMonotone | script.js:338-342 | In one phase, less time remaining means at least as much progress |
| EngineProperties.SkipVersusCompletion | script.js:83-88 | From work with n sessions, a skip takes a long break iff n is a positive multiple of 4, but a natural completion does iff n + 1 is. Only the completion counts the session |
| EngineProperties.BreakReturnsToFullWork | script.js:252-261 | Work then break, both completing naturally, gives one more session and one more cycle, and work again with its full minutes |
| EngineProperties.AutoStartRunsFullPhase | script.js:247-251 | After a natural completion the deferred start runs the next phase for its full duration, counted from the fire instant |
| EngineProperties.ManualStartWinsOverAutoStart | script.js:265-269 | After a manual start the deferred start is a no-op |
| EngineProperties.InterimPauseDoesNotCancelAutoStart | script.js:247-251 | A start and a pause inside the delay do not cancel the deferred start. The timer runs again towards the deadline the manual start set |
| EngineProperties.SettingsActLikeReset | script.js:126-176 | Accepted set-cycles and apply-settings are the reset sequence applied after storing the new values |
| EngineProperties.AppliedSettingsGovernLaterPhases | script.js:146-176 | After applying durations, a fresh work or rest phase lasts exactly the new minutes |
| EngineProperties.WorkExpiresAfterOneMinute | script.js:236-251 | With one-minute durations, work started at 0 expires at 60 s. The result is one session, a one-minute short break, the work alarm and an auto-start request |
| EngineProperties.BreakExpiryStopsAtTarget | script.js:252-271 | With a target of one cycle, the break's expiry gives one cycle, work, the rest alarm, an idle timer and no auto-start |
| EngineProperties.RejectedSettingsChangeNothing | script.js:146-151 | Work 200 with rest 5, targets 0 and 21, and a non-number target are each rejected without any change |
| EngineProperties.SkipAfterThreeSessions | script.js:83-88 | Skipping work after 3 sessions gives a short break and keeps the count at 3 |
| Session.Command | script.js:47-57 | A command acts through its engine operation and keeps validity. A resetting command zeroes both counters, and any other command leaves them unchanged |
| Session.TickStep | script.js:216-272 | A tick acts as the engine tick. A completion appends exactly its alarm to the log, and each counter grows by the alarms of its kind. An auto-start is scheduled exactly when the tick requests one |
| Session.Step | script.js:47-57 | Any event keeps validity, and the alarm log grows by at most one entry. A resetting event zeroes the counters, and any other event grows each counter by the alarms of its kind emitted. A tick adds a pending auto-start exactly when it requests one. A firing with one pending consumes it and starts the timer, and with none pending it changes nothing. Commands leave the pending starts and the log alone |
| Session.StepAppliesCommand | script.js:47-57 | Each button, and the end of the alarm tones, applies its own engine operation to the timer |
| Session.Run | script.js:47-57 | Any sequence of events keeps the timer valid and only extends the alarm log |
| Session.AlarmsMatchCounters | script.js:235-272 | Over any run without a resetting event, sessions grow by exactly the number of work alarms and cycles by exactly the number of rest alarms |
| Session.CountersNeverDecrease | script.js:235-272 | Over any run without a resetting event, neither counter decreases |
| Session.ResetDuringDelayStillAutoStarts | script.js:247-251 | A reset while an auto-start is pending does not cancel it: the timer runs once it fires |
| Session.CompletionThenResetStillAutoStarts | script.js:247-251 | A work phase that completes on a tick schedules one auto-start. A reset during the delay does not stop it, and the timer runs once it fires |
| CorrectedPause.Pause | script.js:201-214 | Corrected pause: the same frozen remaining time as `Engine.Pause`, and the deadline is dropped |
| CorrectedPause.ResumeReusesOriginalDeadline | script.js:191-193 | As written, start at t0, pause and resume leaves the deadline at t0 + remaining, however long the pause was |
| CorrectedPause.PausedWorkSessionCompletesEarly | script.js:201-214 | As written, 10 s of a one-minute work phase, a one-minute pause and a resume: the first tick completes the session |
| CorrectedPause.PauseExcludesPausedTime | script.js:201-214 | Corrected: after pause and resume, the remaining time is the phase time minus the running time only |
| CorrectedPause.PausedWorkSessionKeepsItsTime | script.js:201-214 | Corrected, with the same inputs: 50 s remain and nothing completes |
| CorrectedPause.PausedTimerHasNoDeadline | script.js:201-214 | Corrected: a paused timer has no deadline, and the next start counts from the frozen time |

## Left out

- Rendering is presentation only and is not modelled: `render`, `initializeUiFromState` beyond the initial state, `updateModeButtonsState`, `getPhaseLabel`, `buildDocumentTitle` and `updateCycleDisplay`.
- Engine.Progress: the CSS custom property is written as a JavaScript double. The model uses an exact `real`, so nothing here is claimed about floating-point rounding.
- The WebAudio alarms (`playBeep`, `playChirpingAlarm`, `playRestAlarm3s`) are not modelled. Each is an emitted `AlarmKind` plus an `alarmActive` flag. The six-tone self-stop is the environment event `AlarmFinished`.
- `setInterval`, `setTimeout` and `clearInterval` are host scheduling. Ticks and deferred auto-starts are events the environment may deliver in any order. The 250 ms cadence and the 750 ms delay are not represented.
- `localStorage` (`saveSettings`, `loadSettings`) is not modelled. `Engine.Init` takes the loaded durations as arguments, and validity covers the ranges, which loading itself does not check.
- `parseInt` is not modelled. Its result is an `Option<int>`, where `None` is NaN, which every range check rejects.
- The keyboard and visibility handlers only dispatch to modelled commands or re-render.
- The daily musing is calendar arithmetic unrelated to the timer.
- ClockFormat.FormatClock: requires ms ≥ 0. Every caller passes a remaining time, which validity keeps non-negative, so JavaScript's output for negative numbers is not modelled.
- Counters are unbounded naturals. JavaScript numbers lose integer precision only past 2^53, which no session reaches.

## Findings

| source | as written | input that shows it | evidently intended | confidence | as-written member | corrected member |
|---|---|---|---|---|---|---|
| script.js:201-214 | Pause freezes the remaining time but keeps `targetEpochMs`, and the next start reuses it, so paused time still runs off the phase | 1-minute work started at 0, paused at 10 s, resumed at 70 s: the first tick completes the work session after 10 s of work | Pause also drops the deadline, so a resume counts from the frozen remaining time | not executed; high | CorrectedPause.PausedWorkSessionCompletesEarly | CorrectedPause.PauseExcludesPausedTime |

`Engine`, `EngineProperties` and `Session` keep the as-written pause, because
they describe the program as it behaves. `CorrectedPause.Pause` is the drop-in
replacement. With it, start-after-pause computes a fresh deadline, and the
properties above show that only running time is taken off the phase.

=== FILE: clock_format.dfy ===
/**
  Rendering of a remaining time in milliseconds as a "MM:SS" clock face:
  the time is rounded up to whole seconds, minutes are padded to at least
  two digits and seconds to exactly two.
 */
module ClockFormat {

  const MS_PER_SECOND: int := 1000
  const SECONDS_PER_MINUTE: int := 60

  predicate IsDigit(c: char) {
    '0' <= c <= '9'
  }

  /** Every character of `s` is a decimal digit. */
  predicate AllDigits(s: string)
    decreases |s|
  {
    |s| == 0 || (AllDigits(s[..|s| - 1]) && IsDigit(s[|s| - 1]))
  }

  function DigitChar(d: int): (c: char)
    requires 0 <= d < 10
    ensures IsDigit(c)
    ensures c as int - '0' as int == d
  {
    ('0' as int + d) as char
  }

  function DigitValue(c: char): int {
    c as int - '0' as int
  }

  /** The number a string of decimal digits denotes, most significant first
      (meaningful when `AllDigits(s)`). */
  function DecimalValue(s: string): int
    decreases |s|
  {
    if |s| == 0 then 0 else DecimalValue(s[..|s| - 1]) * 10 + DigitValue(s[|s| - 1])
  }

  /** Decimal notation of a non-negative integer, without leading zeros. */
  function DecimalString(n: nat): (s: string)
    ensures |s| >= 1 && AllDigits(s)
    ensures DecimalValue(s) == n
    ensures s[0] == '0' ==> n == 0
    decreases n
  {
    if n < 10 then [DigitChar(n)]
    else
      var prefix := DecimalString(n / 10);
      var s := prefix + [DigitChar(n % 10)];
      assert s[..|s| - 1] == prefix;
      s
  }

  /** Left padding of `s` with `fill` up to `width` characters. */
  function PadStart(s: string, width: nat, fill: char): (r: string)
    ensures |r| == if |s| >= width then |s| else width
    ensures r[|r| - |s|..] == s
    ensures forall i :: 0 <= i < |r| - |s| ==> r[i] == fill
  {
    if |s| >= width then s else seq(width - |s|, _ => fill) + s
  }

  /** Leading zeros do not change the value of a digit string. */
  lemma {:induction false} LeadingZerosKeepValue(zeros: string, s: string)
    requires forall i :: 0 <= i < |zeros| ==> zeros[i] == '0'
    requires AllDigits(s)
    ensures AllDigits(zeros + s)
    ensures DecimalValue(zeros + s) == DecimalValue(s)
    decreases |s|, |zeros|
  {
    if |s| == 0 {
      assert zeros + s == zeros;
      if |zeros| > 0 {
        var shorter := zeros[..|zeros| - 1];
        assert zeros[..|zeros| - 1] + [] == shorter;
        LeadingZerosKeepValue(shorter, []);
        assert shorter + [] == shorter;
      }
    } else {
      var init := s[..|s| - 1];
      LeadingZerosKeepValue(zeros, init);
      assert (zeros + s)[..|zeros + s| - 1] == zeros + init;
    }
  }

  /** Padding with '0' keeps a digit string's value. */
  lemma ZeroPaddingKeepsValue(s: string, width: nat)
    requires AllDigits(s)
    ensures AllDigits(PadStart(s, width, '0'))
    ensures DecimalValue(PadStart(s, width, '0')) == DecimalValue(s)
  {
    if |s| < width {
      LeadingZerosKeepValue(seq(width - |s|, _ => '0'), s);
    }
  }

  /** Whole seconds shown for `ms`: `ms / 1000` rounded up. */
  function TotalSeconds(ms: int): (t: int)
    ensures t * MS_PER_SECOND >= ms
    ensures (t - 1) * MS_PER_SECOND < ms
    ensures ms >= 0 ==> t >= 0
  {
    (ms + MS_PER_SECOND - 1) / MS_PER_SECOND
  }

  /** Numbers below 100 need at most two digits. */
  lemma DecimalStringLength(n: nat)
    ensures n < 100 ==> |DecimalString(n)| <= 2
  {
  }

  /** Two-digit (at least) decimal field, as `String(n).padStart(2, '0')`. */
  function Field(n: nat): (f: string)
    ensures |f| >= 2 && AllDigits(f)
    ensures n < 100 ==> |f| == 2
    ensures f[0] == '0' ==> n < 10
    ensures DecimalValue(f) == n
  {
    ZeroPaddingKeepsValue(DecimalString(n), 2);
    DecimalStringLength(n);
    PadStart(DecimalString(n), 2, '0')
  }

  /** `clock` reads as `t` seconds: a minutes field of at least two digits
      holding `t` div 60, a colon, and a two-digit seconds field holding
      `t` mod 60. */
  predicate ShowsSeconds(clock: string, t: int) {
    && |clock| >= 5 && clock[|clock| - 3] == ':'
    && (t / SECONDS_PER_MINUTE < 100 ==> |clock| == 5)
    && (clock[0] == '0' ==> t / SECONDS_PER_MINUTE < 10)
    && AllDigits(clock[..|clock| - 3]) && AllDigits(clock[|clock| - 2..])
    && DecimalValue(clock[..|clock| - 3]) == t / SECONDS_PER_MINUTE
    && DecimalValue(clock[|clock| - 2..]) == t % SECONDS_PER_MINUTE
  }

  /** A minutes field and a seconds field joined by a colon show the time
      their values denote. */
  lemma JoinShowsSeconds(minutes: string, seconds: string, t: nat)
    requires |minutes| >= 2 && |seconds| == 2
    requires t / SECONDS_PER_MINUTE < 100 ==> |minutes| == 2
    requires minutes[0] == '0' ==> t / SECONDS_PER_MINUTE < 10
    requires AllDigits(minutes) && AllDigits(seconds)
    requires DecimalValue(minutes) == t / SECONDS_PER_MINUTE
    requires DecimalValue(seconds) == t % SECONDS_PER_MINUTE
    ensures ShowsSeconds(minutes + [':'] + seconds, t)
  {
    var clock := minutes + [':'] + seconds;
    assert clock[..|clock| - 3] == minutes;
    assert clock[|clock| - 2..] == seconds;
  }

  /** The clock face for a whole number of seconds. */
  function ClockFace(t: nat): (clock: string)
    ensures ShowsSeconds(clock, t)
  {
    var minutes := Field(t / SECONDS_PER_MINUTE);
    var seconds := Field(t % SECONDS_PER_MINUTE);
    JoinShowsSeconds(minutes, seconds, t);
    minutes + [':'] + seconds
  }

  /** The clock face for a non-negative remaining time: `ms` rounded up to
      whole seconds, shown as minutes and seconds. */
  function FormatClock(ms: int): (clock: string)
    requires ms >= 0
    ensures ShowsSeconds(clock, TotalSeconds(ms))
  {
    ClockFace(TotalSeconds(ms))
  }

  /** A clock face shows at most one whole number of seconds. */
  lemma ShowsAtMostOneTime(clock: string, a: int, b: int)
    requires ShowsSeconds(clock, a) && ShowsSeconds(clock, b)
    ensures a == b
  {
    QuotientAndRemainderDetermine(a, b);
  }

  lemma QuotientAndRemainderDetermine(x: int, y: int)
    requires x / SECONDS_PER_MINUTE == y / SECONDS_PER_MINUTE
    requires x % SECONDS_PER_MINUTE == y % SECONDS_PER_MINUTE
    ensures x == y
  {
  }

  /** Two times show the same clock face exactly when they round up to the
      same whole second. */
  lemma SameClockIffSameSecond(a: int, b: int)
    requires a >= 0 && b >= 0
    ensures FormatClock(a) == FormatClock(b) <==> TotalSeconds(a) == TotalSeconds(b)
  {
    if FormatClock(a) == FormatClock(b) {
      ShowsAtMostOneTime(FormatClock(a), TotalSeconds(a), TotalSeconds(b));
    }
  }
}

=== FILE: corrected_pause.dfy ===
/**
  Pausing as written keeps the deadline, and the next start reuses it, so
  the time spent paused is still taken off the phase. This module exhibits
  that behaviour and defines the pause that was evidently intended: it also
  drops the deadline, so the next start counts from the frozen remaining
  time and only running time is taken off.
 */
module CorrectedPause {
  import opened Engine

  /** Pause that freezes the remaining time and forgets the deadline. */
  function Pause(s: Timer, now: int): (r: Timer)
    ensures !s.isRunning ==> r == s
    ensures s.isRunning ==> !r.isRunning && r.deadline.None?
    ensures Counting(s) ==> r.remainingMs == TimeLeft(s.deadline.value, now)
    ensures r == s.(isRunning := r.isRunning, remainingMs := r.remainingMs, deadline := r.deadline)
    ensures Valid(s) ==> Valid(r)
  {
    if !s.isRunning then s else Engine.Pause(s, now).(deadline := None)
  }

  /** As written: run from `t0`, pause at `t1`, resume at `t2`; the resumed
      timer aims at the first deadline, whatever the length of the pause. */
  lemma ResumeReusesOriginalDeadline(s: Timer, t0: int, t1: int, t2: int)
    requires !s.isRunning && s.deadline.None?
    ensures Start(Engine.Pause(Start(s, t0), t1), t2).deadline == Some(t0 + s.remainingMs)
  {
    var running := Start(s, t0);
    assert running.deadline == Some(t0 + s.remainingMs);
    assert Engine.Pause(running, t1).deadline == running.deadline;
  }

  /** As written, concretely: one minute of work, run for 10 s, paused for a
      minute, resumed; the very first tick after resuming completes the work
      session although only 10 s of it ran. */
  lemma PausedWorkSessionCompletesEarly()
    ensures var running := Start(Init(1, 1), 0);
            var resumed := Start(Engine.Pause(running, 10000), 70000);
            var t := Tick(resumed, 70000);
            && t.alarm == Some(WorkComplete)
            && t.timer.completedWorkSessions == 1
  {
  }

  /** Corrected: after a pause and a resume, the remaining time a tick shows
      is the phase's time less the running time only, the pause excluded. */
  lemma PauseExcludesPausedTime(s: Timer, t0: int, t1: int, t2: int, t3: int)
    requires !s.isRunning && s.deadline.None?
    requires t0 <= t1 <= t2 <= t3
    requires (t1 - t0) + (t3 - t2) < s.remainingMs
    ensures var resumed := Start(Pause(Start(s, t0), t1), t2);
            var t := Tick(resumed, t3);
            && t.alarm.None?
            && t.timer.isRunning
            && t.timer.remainingMs == s.remainingMs - (t1 - t0) - (t3 - t2)
  {
    var running := Start(s, t0);
    assert running.deadline == Some(t0 + s.remainingMs);
    var paused := Pause(running, t1);
    assert paused.remainingMs == s.remainingMs - (t1 - t0);
    var resumed := Start(paused, t2);
    assert resumed.deadline == Some(t2 + paused.remainingMs);
  }

  /** Corrected, concretely: the same run leaves 50 s of work after resuming. */
  lemma PausedWorkSessionKeepsItsTime()
    ensures var running := Start(Init(1, 1), 0);
            var resumed := Start(Pause(running, 10000), 70000);
            var t := Tick(resumed, 70000);
            && t.alarm.None?
            && t.timer.remainingMs == 50000
  {
  }

  /** Corrected: a paused timer carries no deadline, so the next start
      counts down from the time the paused display showed. */
  lemma PausedTimerHasNoDeadline(s: Timer, now: int)
    requires Valid(s) && s.isRunning
    ensures !Pause(s, now).isRunning && Pause(s, now).deadline.None?
    ensures Start(Pause(s, now), now).deadline == Some(now + Pause(s, now).remainingMs)
  {
    var paused := Pause(s, now);
    assert !paused.isRunning && paused.deadline.None?;
  }
}

=== FILE: engine.dfy ===
/**
  The phase timer engine: an immutable timer record and the commands that
  transform it. The wall clock is the explicit argument `now` (milliseconds
  since the epoch); the remaining time is always recomputed from an absolute
  deadline, never decremented per tick.

  As in script.js, pausing freezes the remaining time but keeps the
  deadline, and starting only computes a deadline when none is set.
 */
module Engine {
  import opened Phases

  datatype Option<T> = None | Some(value: T)

  /** The two alarm signals a natural phase completion emits. */
  datatype AlarmKind = WorkComplete | RestComplete

  datatype Timer = Timer(
    phase: Phase,
    remainingMs: int,
    isRunning: bool,
    deadline: Option<int>,
    completedWorkSessions: nat,
    completedCycles: nat,
    targetCycles: int,
    workMinutes: int,
    restMinutes: int,
    alarmActive: bool)

  /** What a tick produces: the new timer, the alarm signal emitted (if the
      phase completed) and whether a deferred auto-start was requested. */
  datatype TickResult = TickResult(timer: Timer, alarm: Option<AlarmKind>, autoStart: bool)

  /** Settings in the accepted ranges, a non-negative remaining time, and a
      deadline whenever the timer runs. */
  predicate Valid(s: Timer) {
    && ValidWorkMinutes(s.workMinutes)
    && ValidRestMinutes(s.restMinutes)
    && ValidTargetCycles(s.targetCycles)
    && s.remainingMs >= 0
    && (s.isRunning ==> s.deadline.Some?)
  }

  /** Full length of the timer's current phase. */
  function Duration(s: Timer): int {
    PhaseDurationMs(s.phase, s.workMinutes, s.restMinutes)
  }

  /** The timer is counting down towards a deadline. */
  predicate Counting(s: Timer) {
    s.isRunning && s.deadline.Some?
  }

  /** Time left until `deadline`, never negative. */
  function TimeLeft(deadline: int, now: int): (ms: int)
    ensures ms >= 0 && ms >= deadline - now
    ensures ms == 0 || ms == deadline - now
  {
    if deadline - now > 0 then deadline - now else 0
  }

  /** The timer at load time, with the (already loaded) duration settings. */
  function Init(workMinutes: int, restMinutes: int): (s: Timer)
    ensures s.phase == Work && !s.isRunning && s.deadline.None?
    ensures s.remainingMs == Duration(s) && s.remainingMs / MS_PER_MINUTE == workMinutes
    ensures s.completedWorkSessions == 0 && s.completedCycles == 0 && !s.alarmActive
    ensures s.targetCycles == DEFAULT_TARGET_CYCLES
    ensures s.workMinutes == workMinutes && s.restMinutes == restMinutes
    ensures Valid(s) <==> ValidWorkMinutes(workMinutes) && ValidRestMinutes(restMinutes)
  {
    Timer(Work, MinutesToMs(workMinutes), false, None, 0, 0,
          DEFAULT_TARGET_CYCLES, workMinutes, restMinutes, false)
  }

  /** The timer when no settings were saved. */
  function Default(): (s: Timer)
    ensures Valid(s)
    ensures s.remainingMs == DEFAULT_WORK_MINUTES * MS_PER_MINUTE
    ensures s.phase == Work && !s.isRunning && s.deadline.None? && !s.alarmActive
    ensures s.completedWorkSessions == 0 && s.completedCycles == 0
    ensures s.targetCycles == DEFAULT_TARGET_CYCLES
    ensures s.workMinutes == DEFAULT_WORK_MINUTES && s.restMinutes == DEFAULT_REST_MINUTES
  {
    Init(DEFAULT_WORK_MINUTES, DEFAULT_REST_MINUTES)
  }

  /** Restores the full duration of the current phase and drops the deadline. */
  function ResetPhaseTime(s: Timer): (r: Timer)
    ensures r.deadline.None?
    ensures r.remainingMs == Duration(r)
    ensures r == s.(remainingMs := r.remainingMs, deadline := None)
    ensures Valid(s) && !s.isRunning ==> Valid(r)
  {
    s.(remainingMs := Duration(s), deadline := None)
  }

  /** Start: a no-op while running; otherwise runs, creating a deadline only
      when there is none (an existing deadline is reused as it stands). */
  function Start(s: Timer, now: int): (r: Timer)
    ensures s.isRunning ==> r == s
    ensures !s.isRunning ==> Counting(r) && r == s.(isRunning := true, deadline := r.deadline)
    ensures !s.isRunning && s.deadline.None? ==> r.deadline == Some(now + s.remainingMs)
    ensures s.deadline.Some? ==> r.deadline == s.deadline
    ensures Valid(s) ==> Valid(r)
  {
    if s.isRunning then s
    else
      var deadline := if s.deadline.None? then now + s.remainingMs else s.deadline.value;
      s.(isRunning := true, deadline := Some(deadline))
  }

  /** Pause: a no-op unless running; otherwise stops and freezes the time
      left until the deadline. The deadline itself is kept. */
  function Pause(s: Timer, now: int): (r: Timer)
    ensures !s.isRunning ==> r == s
    ensures s.isRunning ==> !r.isRunning && r.deadline == s.deadline
    ensures Counting(s) ==> r.remainingMs == TimeLeft(s.deadline.value, now)
    ensures r == s.(isRunning := r.isRunning, remainingMs := r.remainingMs)
    ensures Valid(s) ==> Valid(r)
  {
    if !s.isRunning then s
    else
      var remaining := if s.deadline.Some? then TimeLeft(s.deadline.value, now) else s.remainingMs;
      s.(isRunning := false, remainingMs := remaining)
  }

  /** The start/pause button (and the space key): toggles running. */
  function StartPause(s: Timer, now: int): (r: Timer)
    ensures r.isRunning == !s.isRunning
    ensures s.isRunning ==> r == s.(isRunning := false, remainingMs := r.remainingMs)
    ensures Counting(s) ==> r.remainingMs == TimeLeft(s.deadline.value, now)
    ensures !s.isRunning ==> r == s.(isRunning := true, deadline := r.deadline)
    ensures !s.isRunning && s.deadline.None? ==> r.deadline == Some(now + s.remainingMs)
    ensures s.deadline.Some? ==> r.deadline == s.deadline
    ensures Valid(s) ==> Valid(r)
  {
    if s.isRunning then Pause(s, now) else Start(s, now)
  }

  /** Natural completion of the current phase: counts it, signals the alarm,
      moves to the next phase with its full duration and decides whether the
      next phase should start by itself. */
  function HandlePhaseComplete(s: Timer): (r: TickResult)
    ensures s.phase == Work ==>
              && r.timer.completedWorkSessions == s.completedWorkSessions + 1
              && r.timer.completedCycles == s.completedCycles
              && r.timer.phase != Work
              && (r.timer.phase == LongBreak <==>
                    (s.completedWorkSessions + 1) % SESSIONS_BEFORE_LONG_BREAK == 0)
              && r.alarm == Some(WorkComplete)
              && r.autoStart
    ensures s.phase != Work ==>
              && r.timer.completedCycles == s.completedCycles + 1
              && r.timer.completedWorkSessions == s.completedWorkSessions
              && r.timer.phase == Work
              && r.alarm == Some(RestComplete)
              && (r.autoStart <==> s.completedCycles + 1 < s.targetCycles)
    ensures r.timer.deadline.None? && r.timer.remainingMs == Duration(r.timer)
    ensures r.timer.alarmActive && r.timer.isRunning == s.isRunning
    ensures r.timer.targetCycles == s.targetCycles
    ensures r.timer.workMinutes == s.workMinutes && r.timer.restMinutes == s.restMinutes
    ensures Valid(s) && !s.isRunning ==> Valid(r.timer)
  {
    if s.phase == Work then
      var counted := s.(completedWorkSessions := s.completedWorkSessions + 1, alarmActive := true);
      var next := counted.(phase := NextPhase(Work, counted.completedWorkSessions));
      TickResult(ResetPhaseTime(next), Some(WorkComplete), true)
    else
      var counted := s.(completedCycles := s.completedCycles + 1, alarmActive := true);
      var next := counted.(phase := NextPhase(s.phase, counted.completedWorkSessions));
      TickResult(ResetPhaseTime(next), Some(RestComplete), counted.completedCycles < s.targetCycles)
  }

  /** Periodic evaluation: a no-op unless counting; otherwise recomputes the
      remaining time from the deadline and, once it reaches zero, stops the
      timer and completes the phase. */
  function Tick(s: Timer, now: int): (r: TickResult)
    ensures !Counting(s) ==> r == TickResult(s, None, false)
    ensures Counting(s) && now < s.deadline.value ==>
              r == TickResult(s.(remainingMs := s.deadline.value - now), None, false)
    ensures Counting(s) && s.deadline.value <= now ==>
              && !r.timer.isRunning && r.timer.deadline.None?
              && r.timer.remainingMs == Duration(r.timer)
              && r.timer.phase == NextPhase(s.phase, r.timer.completedWorkSessions)
    ensures Counting(s) && s.deadline.value <= now ==>
              r == HandlePhaseComplete(s.(remainingMs := 0, isRunning := false, deadline := None))
    ensures r.alarm.Some? <==> Counting(s) && s.deadline.value <= now
    ensures r.alarm == Some(WorkComplete) <==> r.alarm.Some? && s.phase == Work
    ensures r.alarm == Some(WorkComplete) ==>
              r.timer.completedWorkSessions == s.completedWorkSessions + 1
              && r.timer.completedCycles == s.completedCycles
    ensures r.alarm == Some(RestComplete) ==>
              r.timer.completedCycles == s.completedCycles + 1
              && r.timer.completedWorkSessions == s.completedWorkSessions
    ensures r.alarm.None? ==>
              r.timer.completedWorkSessions == s.completedWorkSessions
              && r.timer.completedCycles == s.completedCycles
    ensures r.autoStart ==> r.alarm.Some?
    ensures Valid(s) ==> Valid(r.timer)
  {
    if !s.isRunning || s.deadline.None? then TickResult(s, None, false)
    else
      var msLeft := TimeLeft(s.deadline.value, now);
      var updated := s.(remainingMs := msLeft);
      if msLeft <= 0 then
        assert s.deadline.value <= now;
        HandlePhaseComplete(updated.(isRunning := false, deadline := None))
      else TickResult(updated, None, false)
  }

  /** The deferred auto-start: starts the timer only if it is idle when the
      delay expires. */
  function AutoStartFire(s: Timer, now: int): (r: Timer)
    ensures s.isRunning ==> r == s
    ensures !s.isRunning ==> r.isRunning && r == s.(isRunning := true, deadline := r.deadline)
    ensures !s.isRunning && s.deadline.None? ==> r.deadline == Some(now + s.remainingMs)
    ensures s.deadline.Some? ==> r.deadline == s.deadline
    ensures Valid(s) ==> Valid(r)
  {
    if s.isRunning then s else Start(s, now)
  }

  /** The reset sequence: pause, restore the phase's full time, zero both
      counters and silence the alarm. The phase itself is kept. */
  function Reset(s: Timer, now: int): (r: Timer)
    ensures !r.isRunning && r.deadline.None?
    ensures r.completedWorkSessions == 0 && r.completedCycles == 0 && !r.alarmActive
    ensures r.remainingMs == Duration(r)
    ensures r.phase == s.phase && r.targetCycles == s.targetCycles
    ensures r.workMinutes == s.workMinutes && r.restMinutes == s.restMinutes
    ensures Valid(s) ==> Valid(r)
  {
    var paused := Pause(s, now);
    ResetPhaseTime(paused).(completedWorkSessions := 0, completedCycles := 0, alarmActive := false)
  }

  /** Skip: pause, move to the next phase using the session count as it
      stands (the skipped phase is not counted), with its full duration. */
  function Skip(s: Timer, now: int): (r: Timer)
    ensures !r.isRunning && r.deadline.None?
    ensures r.phase == NextPhase(s.phase, s.completedWorkSessions)
    ensures r.remainingMs == Duration(r)
    ensures r.completedWorkSessions == s.completedWorkSessions
    ensures r.completedCycles == s.completedCycles
    ensures r.alarmActive == s.alarmActive && r.targetCycles == s.targetCycles
    ensures r.workMinutes == s.workMinutes && r.restMinutes == s.restMinutes
    ensures Valid(s) ==> Valid(r)
  {
    var paused := Pause(s, now);
    ResetPhaseTime(paused.(phase := NextPhase(paused.phase, paused.completedWorkSessions)))
  }

  /** The work-mode button: pause and switch to a fresh work phase. */
  function WorkMode(s: Timer, now: int): (r: Timer)
    ensures !r.isRunning && r.deadline.None?
    ensures r.phase == Work && r.remainingMs == Duration(r)
    ensures r.remainingMs / MS_PER_MINUTE == s.workMinutes
    ensures r.completedWorkSessions == s.completedWorkSessions
    ensures r.completedCycles == s.completedCycles && r.alarmActive == s.alarmActive
    ensures r.workMinutes == s.workMinutes && r.restMinutes == s.restMinutes
    ensures r.targetCycles == s.targetCycles
    ensures Valid(s) ==> Valid(r)
  {
    var paused := Pause(s, now);
    paused.(phase := Work, remainingMs := MinutesToMs(s.workMinutes), deadline := None)
  }

  /** The rest-mode button: pause and switch to a fresh short break (never a
      long one). */
  function RestMode(s: Timer, now: int): (r: Timer)
    ensures !r.isRunning && r.deadline.None?
    ensures r.phase == ShortBreak && r.remainingMs == Duration(r)
    ensures r.remainingMs / MS_PER_MINUTE == s.restMinutes
    ensures r.completedWorkSessions == s.completedWorkSessions
    ensures r.completedCycles == s.completedCycles && r.alarmActive == s.alarmActive
    ensures r.workMinutes == s.workMinutes && r.restMinutes == s.restMinutes
    ensures r.targetCycles == s.targetCycles
    ensures Valid(s) ==> Valid(r)
  {
    var paused := Pause(s, now);
    paused.(phase := ShortBreak, remainingMs := MinutesToMs(s.restMinutes), deadline := None)
  }

  /** A parsed form field: `None` stands for a value that is not a number. */
  predicate AcceptsCycles(input: Option<int>) {
    input.Some? && ValidTargetCycles(input.value)
  }

  predicate AcceptsSettings(work: Option<int>, rest: Option<int>) {
    work.Some? && rest.Some? && ValidWorkMinutes(work.value) && ValidRestMinutes(rest.value)
  }

  /** Set the target number of cycles; out-of-range input is ignored. */
  function SetCycles(s: Timer, input: Option<int>, now: int): (r: Timer)
    ensures !AcceptsCycles(input) ==> r == s
    ensures AcceptsCycles(input) ==>
              && r.targetCycles == input.value
              && !r.isRunning && r.deadline.None? && !r.alarmActive
              && r.completedWorkSessions == 0 && r.completedCycles == 0
              && r.remainingMs == Duration(r) && r.phase == s.phase
              && r.workMinutes == s.workMinutes && r.restMinutes == s.restMinutes
    ensures Valid(s) ==> Valid(r)
  {
    if AcceptsCycles(input) then Reset(s.(targetCycles := input.value), now) else s
  }

  /** Apply new work and rest durations; out-of-range input is ignored. */
  function ApplySettings(s: Timer, work: Option<int>, rest: Option<int>, now: int): (r: Timer)
    ensures !AcceptsSettings(work, rest) ==> r == s
    ensures AcceptsSettings(work, rest) ==>
              && r.workMinutes == work.value && r.restMinutes == rest.value
              && !r.isRunning && r.deadline.None? && !r.alarmActive
              && r.completedWorkSessions == 0 && r.completedCycles == 0
              && r.remainingMs == Duration(r) && r.phase == s.phase
              && r.targetCycles == s.targetCycles
    ensures Valid(s) ==> Valid(r)
  {
    if AcceptsSettings(work, rest) then
      Reset(s.(workMinutes := work.value, restMinutes := rest.value), now)
    else s
  }

  /** The alarm's tone sequence has played out by itself. */
  function AlarmFinished(s: Timer): (r: Timer)
    ensures !r.alarmActive
    ensures r.(alarmActive := s.alarmActive) == s
  {
    s.(alarmActive := false)
  }

  /** Elapsed fraction of the current phase, clamped to [0, 1]. */
  function Progress(s: Timer): (p: real)
    requires Duration(s) > 0
    ensures 0.0 <= p <= 1.0
    ensures s.remainingMs >= Duration(s) ==> p == 0.0
    ensures s.remainingMs <= 0 ==> p == 1.0
    ensures 0 <= s.remainingMs <= Duration(s) ==>
              p == 1.0 - s.remainingMs as real / Duration(s) as real
  {
    var fraction := s.remainingMs as real / Duration(s) as real;
    FractionBounds(s.remainingMs as real, Duration(s) as real);
    var raw := 1.0 - fraction;
    if raw < 0.0 then 0.0 else if raw > 1.0 then 1.0 else raw
  }

  /** Where `x / d` lies relative to 0 and 1, for a positive `d`. */
  lemma FractionBounds(x: real, d: real)
    requires d > 0.0
    ensures x >= d ==> x / d >= 1.0
    ensures x <= 0.0 ==> x / d <= 0.0
    ensures 0.0 <= x ==> 0.0 <= x / d
    ensures x <= d ==> x / d <= 1.0
  {
    assert x / d * d == x;
  }
}

=== FILE: engine_properties.dfy ===
/**
  Properties that relate several engine operations: start/pause pairs,
  deadline-anchored ticking, skip versus natural completion, progress, and
  the end-to-end scenarios of a one-minute configuration.
 */
module EngineProperties {
  import opened Phases
  import opened Engine

  /** Starting and pausing at the same instant, from a timer without a
      deadline, leaves the remaining time as it was. */
  lemma StartThenPauseKeepsRemaining(s: Timer, now: int)
    requires !s.isRunning && s.deadline.None? && s.remainingMs >= 0
    ensures Pause(Start(s, now), now).remainingMs == s.remainingMs
    ensures !Pause(Start(s, now), now).isRunning
  {
  }

  /** A tick that does not expire the phase leaves nothing for a later tick
      to catch up on: two ticks give the same result as the later one alone,
      so missed ticks cannot make the remaining time drift. */
  lemma MissedTicksDoNotDrift(s: Timer, t1: int, t2: int)
    requires Counting(s)
    requires t1 <= t2 && t1 < s.deadline.value
    ensures Tick(Tick(s, t1).timer, t2) == Tick(s, t2)
  {
    var first := Tick(s, t1).timer;
    assert first == s.(remainingMs := s.deadline.value - t1);
    assert Counting(first) && first.deadline == s.deadline;
    if t2 < s.deadline.value {
      assert first.(remainingMs := s.deadline.value - t2) == s.(remainingMs := s.deadline.value - t2);
    } else {
      assert first.(remainingMs := 0, isRunning := false, deadline := None)
          == s.(remainingMs := 0, isRunning := false, deadline := None);
    }
  }

  /** The remaining time agrees with the deadline as of instant `now`: it is
      at least the time still left until the deadline. */
  predicate InSync(s: Timer, now: int) {
    s.deadline.Some? ==> s.remainingMs >= s.deadline.value - now
  }

  /** Starting keeps the timer in sync with the start instant. */
  lemma StartKeepsInSync(s: Timer, now: int)
    requires InSync(s, now)
    ensures InSync(Start(s, now), now)
  {
    if !s.isRunning && s.deadline.None? {
      assert Start(s, now).deadline == Some(now + s.remainingMs);
    }
  }

  /** While the timer runs in the same phase, ticks never increase the
      remaining time, so the displayed progress never goes backwards. */
  lemma TickNeverIncreasesRemaining(s: Timer, now: int, later: int)
    requires Valid(s) && Counting(s) && InSync(s, now) && now <= later
    requires later < s.deadline.value
    ensures Tick(s, later).timer.remainingMs <= s.remainingMs
    ensures Tick(s, later).timer.phase == s.phase
    ensures Progress(s) <= Progress(Tick(s, later).timer)
  {
    var t := Tick(s, later).timer;
    assert t == s.(remainingMs := s.deadline.value - later);
    ProgressMonotone(s, t);
  }

  /** Less time left in the same phase means at least as much progress. */
  lemma ProgressMonotone(a: Timer, b: Timer)
    requires Duration(a) > 0
    requires b.phase == a.phase && b.workMinutes == a.workMinutes && b.restMinutes == a.restMinutes
    requires b.remainingMs <= a.remainingMs
    ensures Progress(a) <= Progress(b)
  {
    var d := Duration(a) as real;
    assert Duration(b) as real == d;
    DivideMonotone(b.remainingMs as real, a.remainingMs as real, d);
  }

  lemma DivideMonotone(x: real, y: real, d: real)
    requires x <= y && d > 0.0
    ensures x / d <= y / d
  {
    assert y / d - x / d == (y - x) / d;
  }

  /** Skipping does not count the skipped work session, natural completion
      does: from work with `n` sessions, a skip takes a long break exactly when
      `n` is a positive multiple of four, a completion exactly when `n + 1` is. */
  lemma SkipVersusCompletion(s: Timer, now: int)
    requires s.phase == Work
    ensures Skip(s, now).phase == LongBreak <==>
              s.completedWorkSessions > 0 && s.completedWorkSessions % SESSIONS_BEFORE_LONG_BREAK == 0
    ensures HandlePhaseComplete(s).timer.phase == LongBreak <==>
              (s.completedWorkSessions + 1) % SESSIONS_BEFORE_LONG_BREAK == 0
    ensures Skip(s, now).completedWorkSessions == s.completedWorkSessions
    ensures HandlePhaseComplete(s).timer.completedWorkSessions == s.completedWorkSessions + 1
  {
  }

  /** After the break that follows a natural work completion, work resumes
      with its full configured duration. */
  lemma BreakReturnsToFullWork(s: Timer)
    requires s.phase == Work
    ensures var brk := HandlePhaseComplete(s).timer;
            var back := HandlePhaseComplete(brk).timer;
            && back.phase == Work
            && back.remainingMs == MinutesToMs(s.workMinutes)
            && back.completedWorkSessions == s.completedWorkSessions + 1
            && back.completedCycles == s.completedCycles + 1
  {
    var brk := HandlePhaseComplete(s).timer;
    assert brk.phase != Work;
  }

  /** A natural completion followed by the deferred auto-start runs the new
      phase for its full duration, counted from the instant the start fires. */
  lemma AutoStartRunsFullPhase(s: Timer, expiry: int, fire: int)
    requires Counting(s) && s.deadline.value <= expiry
    ensures var done := Tick(s, expiry);
            var started := AutoStartFire(done.timer, fire);
            && started.isRunning
            && started.deadline == Some(fire + Duration(done.timer))
            && started.phase == NextPhase(s.phase, done.timer.completedWorkSessions)
  {
    var done := Tick(s, expiry);
    assert !done.timer.isRunning && done.timer.deadline.None?;
  }

  /** The deferred start does nothing once the user has started the timer. */
  lemma ManualStartWinsOverAutoStart(s: Timer, manual: int, fire: int)
    requires !s.isRunning
    ensures AutoStartFire(Start(s, manual), fire) == Start(s, manual)
  {
  }

  /** Only a running timer guards the deferred start: a start followed by a
      pause before the delay expires does not cancel it, and the timer runs
      again, towards the deadline set by the manual start. */
  lemma InterimPauseDoesNotCancelAutoStart(s: Timer, t1: int, t2: int, fire: int)
    requires !s.isRunning && s.deadline.None?
    ensures var r := AutoStartFire(Pause(Start(s, t1), t2), fire);
            r.isRunning && r.deadline == Some(t1 + s.remainingMs)
  {
    var started := Start(s, t1);
    assert started.deadline == Some(t1 + s.remainingMs);
  }

  /** Reset and the accepted settings commands all leave the same kind of
      timer: paused, counters zero, full time of the current phase. */
  lemma SettingsActLikeReset(s: Timer, n: int, w: int, rest: int, now: int)
    requires ValidTargetCycles(n) && ValidWorkMinutes(w) && ValidRestMinutes(rest)
    ensures SetCycles(s, Some(n), now) == Reset(s.(targetCycles := n), now)
    ensures ApplySettings(s, Some(w), Some(rest), now)
         == Reset(s.(workMinutes := w, restMinutes := rest), now)
  {
    assert AcceptsCycles(Some(n));
    assert AcceptsSettings(Some(w), Some(rest));
  }

  /** Applying settings makes the new durations the ones every later fresh
      phase uses. */
  lemma AppliedSettingsGovernLaterPhases(s: Timer, w: int, rest: int, now: int, later: int)
    requires ValidWorkMinutes(w) && ValidRestMinutes(rest)
    ensures var applied := ApplySettings(s, Some(w), Some(rest), now);
            && WorkMode(applied, later).remainingMs == MinutesToMs(w)
            && RestMode(applied, later).remainingMs == MinutesToMs(rest)
  {
    assert AcceptsSettings(Some(w), Some(rest));
  }

  /** One-minute work and rest, target of one cycle. */
  function OneMinuteTimer(): (s: Timer)
    ensures Valid(s) && s.phase == Work && s.remainingMs == 60000
    ensures s.targetCycles == 1
  {
    Init(1, 1).(targetCycles := 1)
  }

  /** Work started at 0 expires on the tick at 60 s: one session, a short
      break of one minute, the work alarm and an auto-start request. */
  lemma WorkExpiresAfterOneMinute()
    ensures var running := Start(OneMinuteTimer(), 0);
            var done := Tick(running, 60000);
            && done.timer.completedWorkSessions == 1
            && done.timer.phase == ShortBreak
            && done.timer.remainingMs == 60000
            && done.alarm == Some(WorkComplete)
            && done.autoStart
  {
  }

  /** The following break, started at 60.75 s, expires a minute later: one
      cycle, back to work, the rest alarm, and no auto-start because the
      target of one cycle is reached. */
  lemma BreakExpiryStopsAtTarget()
    ensures var running := Start(OneMinuteTimer(), 0);
            var brk := Tick(running, 60000).timer;
            var restarted := AutoStartFire(brk, 60750);
            var done := Tick(restarted, 120750);
            && done.timer.completedCycles == 1
            && done.timer.phase == Work
            && done.alarm == Some(RestComplete)
            && !done.autoStart
            && !done.timer.isRunning
  {
  }

  /** Out-of-range settings change nothing. */
  lemma RejectedSettingsChangeNothing(s: Timer, now: int)
    ensures ApplySettings(s, Some(200), Some(5), now) == s
    ensures SetCycles(s, Some(0), now) == s && SetCycles(s, Some(21), now) == s
    ensures SetCycles(s, None, now) == s
  {
  }

  /** Skipping work after three sessions leads to a short break. */
  lemma SkipAfterThreeSessions(s: Timer, now: int)
    requires s.phase == Work && s.completedWorkSessions == 3
    ensures Skip(s, now).phase == ShortBreak
    ensures Skip(s, now).completedWorkSessions == 3
  {
  }
}

=== FILE: phases.dfy ===
/**
  Phases of the Pomodoro cycle, the configured constants and the rule that
  picks the next phase. Durations are integer milliseconds.
 */
module Phases {

  datatype Phase = Work | ShortBreak | LongBreak

  /** Built-in defaults and fixed constants of the timer. */
  const DEFAULT_WORK_MINUTES: int := 25
  const DEFAULT_REST_MINUTES: int := 5
  const DEFAULT_TARGET_CYCLES: int := 4
  const LONG_BREAK_MINUTES: int := 15
  const SESSIONS_BEFORE_LONG_BREAK: int := 4
  const MS_PER_MINUTE: int := 60 * 1000

  /** Ranges the settings form accepts. */
  const MIN_WORK_MINUTES: int := 1
  const MAX_WORK_MINUTES: int := 120
  const MIN_REST_MINUTES: int := 1
  const MAX_REST_MINUTES: int := 60
  const MIN_TARGET_CYCLES: int := 1
  const MAX_TARGET_CYCLES: int := 20

  predicate ValidWorkMinutes(m: int) {
    MIN_WORK_MINUTES <= m <= MAX_WORK_MINUTES
  }

  predicate ValidRestMinutes(m: int) {
    MIN_REST_MINUTES <= m <= MAX_REST_MINUTES
  }

  predicate ValidTargetCycles(n: int) {
    MIN_TARGET_CYCLES <= n <= MAX_TARGET_CYCLES
  }

  /** The phase entered after `p`, given the number of completed work
      sessions as it stands at the moment of the transition. */
  function NextPhase(p: Phase, completedWorkSessions: nat): (next: Phase)
    ensures p != Work ==> next == Work
    ensures p == Work ==> next != Work
    ensures next == LongBreak <==>
              p == Work && completedWorkSessions > 0
              && completedWorkSessions % SESSIONS_BEFORE_LONG_BREAK == 0
  {
    if p == Work then
      if completedWorkSessions > 0 && completedWorkSessions % SESSIONS_BEFORE_LONG_BREAK == 0
      then LongBreak
      else ShortBreak
    else
      Work
  }

  /** A long break follows work exactly when the session count is a
      positive multiple of the cadence. */
  lemma LongBreakEveryFourthSession(n: nat)
    ensures NextPhase(Work, n) == LongBreak <==>
              exists k: nat {:trigger SESSIONS_BEFORE_LONG_BREAK * k} ::
                k >= 1 && n == SESSIONS_BEFORE_LONG_BREAK * k
  {
    if NextPhase(Work, n) == LongBreak {
      var k: nat := n / SESSIONS_BEFORE_LONG_BREAK;
      assert n == SESSIONS_BEFORE_LONG_BREAK * k;
    }
    if exists k: nat {:trigger SESSIONS_BEFORE_LONG_BREAK * k} ::
         k >= 1 && n == SESSIONS_BEFORE_LONG_BREAK * k {
      var k: nat :| k >= 1 && n == SESSIONS_BEFORE_LONG_BREAK * k;
      assert n % SESSIONS_BEFORE_LONG_BREAK == 0;
    }
  }

  /** Minutes to milliseconds; exact for whole minutes, so the rounding the
      program applies never changes the value. */
  function MinutesToMs(minutes: int): (ms: int)
    ensures ms % MS_PER_MINUTE == 0
    ensures ms / MS_PER_MINUTE == minutes
  {
    minutes * MS_PER_MINUTE
  }

  /** Full length of phase `p` under the given settings. */
  function PhaseDurationMs(p: Phase, workMinutes: int, restMinutes: int): (ms: int)
    ensures ms % MS_PER_MINUTE == 0
    ensures p == Work ==> ms / MS_PER_MINUTE == workMinutes
    ensures p == ShortBreak ==> ms / MS_PER_MINUTE == restMinutes
    ensures p == LongBreak ==> ms / MS_PER_MINUTE == LONG_BREAK_MINUTES
    ensures ValidWorkMinutes(workMinutes) && ValidRestMinutes(restMinutes) ==>
              MS_PER_MINUTE <= ms <= MAX_WORK_MINUTES * MS_PER_MINUTE
  {
    match p
    case Work => MinutesToMs(workMinutes)
    case ShortBreak => MinutesToMs(restMinutes)
    case LongBreak => MinutesToMs(LONG_BREAK_MINUTES)
  }
}

=== FILE: session.dfy ===
/**
  The engine driven by its environment: user commands, ticks of the
  periodic evaluation, firings of deferred auto-starts and the end of an
  alarm's tone sequence arrive in any order, each carrying the instant at
  which it happens. A session also records the auto-starts still pending
  and the log of alarm signals emitted so far.
 */
module Session {
  import opened Phases
  import opened Engine

  datatype Event =
    | StartPauseClicked(now: int)
    | TickFired(now: int)
    | AutoStartFired(now: int)
    | ResetClicked(now: int)
    | SkipClicked(now: int)
    | WorkModeClicked(now: int)
    | RestModeClicked(now: int)
    | SetCyclesClicked(cycles: Option<int>, now: int)
    | ApplySettingsClicked(work: Option<int>, rest: Option<int>, now: int)
    | AlarmFinishedPlaying

  /** What the engine's environment holds at one moment: the timer, the
      deferred auto-starts scheduled and not yet fired, and the alarm log. */
  datatype World = World(timer: Timer, pendingAutoStarts: nat, alarms: seq<AlarmKind>)

  /** The events that zero both counters. */
  predicate ResetsCounters(e: Event) {
    || e.ResetClicked?
    || (e.SetCyclesClicked? && AcceptsCycles(e.cycles))
    || (e.ApplySettingsClicked? && AcceptsSettings(e.work, e.rest))
  }

  /** Number of signals of kind `k` in an alarm log. */
  function Count(log: seq<AlarmKind>, k: AlarmKind): nat {
    if |log| == 0 then 0
    else Count(log[..|log| - 1], k) + (if log[|log| - 1] == k then 1 else 0)
  }

  lemma CountAppend(log: seq<AlarmKind>, x: AlarmKind, k: AlarmKind)
    ensures Count(log + [x], k) == Count(log, k) + (if x == k then 1 else 0)
  {
    assert (log + [x])[..|log|] == log;
  }

  /** The events a user or the alarm player raises; the others come from
      timers. */
  predicate IsCommand(e: Event) {
    !e.TickFired? && !e.AutoStartFired?
  }

  /** A command acts on the timer alone. A resetting command zeroes both
      counters; any other leaves them as they were. */
  function Command(t: Timer, e: Event): (r: Timer)
    requires IsCommand(e)
    ensures Valid(t) ==> Valid(r)
    ensures ResetsCounters(e) ==> r.completedWorkSessions == 0 && r.completedCycles == 0
    ensures !ResetsCounters(e) ==>
              r.completedWorkSessions == t.completedWorkSessions
              && r.completedCycles == t.completedCycles
  {
    match e
    case StartPauseClicked(now) => StartPause(t, now)
    case ResetClicked(now) => Reset(t, now)
    case SkipClicked(now) => Skip(t, now)
    case WorkModeClicked(now) => WorkMode(t, now)
    case RestModeClicked(now) => RestMode(t, now)
    case SetCyclesClicked(cycles, now) => SetCycles(t, cycles, now)
    case ApplySettingsClicked(work, rest, now) => ApplySettings(t, work, rest, now)
    case AlarmFinishedPlaying => AlarmFinished(t)
  }

  /** A tick of the periodic evaluation. A completion appends its alarm to the
      log and, when it asks for one, schedules an auto-start. */
  function TickStep(s: World, now: int): (r: World)
    ensures Valid(s.timer) ==> Valid(r.timer)
    ensures r.timer == Tick(s.timer, now).timer
    ensures r.pendingAutoStarts
            == s.pendingAutoStarts + (if Tick(s.timer, now).autoStart then 1 else 0)
    ensures |s.alarms| <= |r.alarms| <= |s.alarms| + 1 && r.alarms[..|s.alarms|] == s.alarms
    ensures Count(r.alarms, WorkComplete) + s.timer.completedWorkSessions
            == Count(s.alarms, WorkComplete) + r.timer.completedWorkSessions
    ensures Count(r.alarms, RestComplete) + s.timer.completedCycles
            == Count(s.alarms, RestComplete) + r.timer.completedCycles
  {
    var t := Tick(s.timer, now);
    if t.alarm.Some? then
      CountAppend(s.alarms, t.alarm.value, WorkComplete);
      CountAppend(s.alarms, t.alarm.value, RestComplete);
      assert (s.alarms + [t.alarm.value])[..|s.alarms|] == s.alarms;
      World(t.timer, s.pendingAutoStarts + (if t.autoStart then 1 else 0),
            s.alarms + [t.alarm.value])
    else
      World(t.timer, s.pendingAutoStarts, s.alarms)
  }

  /** One event. A tick that completes a phase appends its alarm to the log
      and, when it asks for one, adds a pending auto-start; a firing consumes
      one pending auto-start (none pending: nothing happens). Nothing cancels
      a pending auto-start. */
  function Step(s: World, e: Event): (r: World)
    ensures Valid(s.timer) ==> Valid(r.timer)
    ensures |s.alarms| <= |r.alarms| <= |s.alarms| + 1 && r.alarms[..|s.alarms|] == s.alarms
    ensures ResetsCounters(e) ==>
              r.timer.completedWorkSessions == 0 && r.timer.completedCycles == 0
    ensures !ResetsCounters(e) ==>
              && Count(r.alarms, WorkComplete) + s.timer.completedWorkSessions
                 == Count(s.alarms, WorkComplete) + r.timer.completedWorkSessions
              && Count(r.alarms, RestComplete) + s.timer.completedCycles
                 == Count(s.alarms, RestComplete) + r.timer.completedCycles
    ensures e.TickFired? ==>
              && r.timer == Tick(s.timer, e.now).timer
              && r.pendingAutoStarts
                 == s.pendingAutoStarts + (if Tick(s.timer, e.now).autoStart then 1 else 0)
    ensures e.AutoStartFired? && s.pendingAutoStarts > 0 ==>
              r.timer == AutoStartFire(s.timer, e.now) && r.pendingAutoStarts == s.pendingAutoStarts - 1
    ensures e.AutoStartFired? && s.pendingAutoStarts == 0 ==> r == s
    ensures IsCommand(e) ==>
              r.pendingAutoStarts == s.pendingAutoStarts && r.alarms == s.alarms
  {
    match e
    case TickFired(now) => TickStep(s, now)
    case AutoStartFired(now) =>
      if s.pendingAutoStarts == 0 then s
      else World(AutoStartFire(s.timer, now), s.pendingAutoStarts - 1, s.alarms)
    case _ => s.(timer := Command(s.timer, e))
  }

  /** Each user command and the end of an alarm's tones act on the timer
      through the engine operation of that command. */
  lemma StepAppliesCommand(s: World, e: Event)
    ensures e.StartPauseClicked? ==> Step(s, e).timer == StartPause(s.timer, e.now)
    ensures e.ResetClicked? ==> Step(s, e).timer == Reset(s.timer, e.now)
    ensures e.SkipClicked? ==> Step(s, e).timer == Skip(s.timer, e.now)
    ensures e.WorkModeClicked? ==> Step(s, e).timer == WorkMode(s.timer, e.now)
    ensures e.RestModeClicked? ==> Step(s, e).timer == RestMode(s.timer, e.now)
    ensures e.SetCyclesClicked? ==> Step(s, e).timer == SetCycles(s.timer, e.cycles, e.now)
    ensures e.ApplySettingsClicked? ==>
              Step(s, e).timer == ApplySettings(s.timer, e.work, e.rest, e.now)
    ensures e.AlarmFinishedPlaying? ==> Step(s, e).timer == AlarmFinished(s.timer)
  {
  }

  /** A sequence of events, in order. Every reachable timer is valid and
      the alarm log only grows. */
  function Run(s: World, events: seq<Event>): (r: World)
    ensures Valid(s.timer) ==> Valid(r.timer)
    ensures |s.alarms| <= |r.alarms| && r.alarms[..|s.alarms|] == s.alarms
    decreases |events|
  {
    if |events| == 0 then s else Run(Step(s, events[0]), events[1..])
  }

  /** Without a resetting event, each counter grows by exactly the number of
      alarms of its kind signalled: one signal per natural completion. */
  lemma {:induction false} AlarmsMatchCounters(s: World, events: seq<Event>)
    requires forall i :: 0 <= i < |events| ==> !ResetsCounters(events[i])
    ensures var r := Run(s, events);
            && Count(r.alarms, WorkComplete) + s.timer.completedWorkSessions
               == Count(s.alarms, WorkComplete) + r.timer.completedWorkSessions
            && Count(r.alarms, RestComplete) + s.timer.completedCycles
               == Count(s.alarms, RestComplete) + r.timer.completedCycles
    decreases |events|
  {
    if |events| > 0 {
      assert !ResetsCounters(events[0]);
      AlarmsMatchCounters(Step(s, events[0]), events[1..]);
    }
  }

  /** Counts in a log never exceed those of a log that extends it. */
  lemma {:induction false} CountPrefix(log: seq<AlarmKind>, longer: seq<AlarmKind>, k: AlarmKind)
    requires |log| <= |longer| && longer[..|log|] == log
    ensures Count(log, k) <= Count(longer, k)
    decreases |longer|
  {
    if |longer| > |log| {
      var init := longer[..|longer| - 1];
      assert init[..|log|] == log;
      CountPrefix(log, init, k);
    } else {
      assert longer == log;
    }
  }

  /** Without a resetting event the counters only grow. */
  lemma CountersNeverDecrease(s: World, events: seq<Event>)
    requires forall i :: 0 <= i < |events| ==> !ResetsCounters(events[i])
    ensures Run(s, events).timer.completedWorkSessions >= s.timer.completedWorkSessions
    ensures Run(s, events).timer.completedCycles >= s.timer.completedCycles
  {
    var r := Run(s, events);
    AlarmsMatchCounters(s, events);
    CountPrefix(s.alarms, r.alarms, WorkComplete);
    CountPrefix(s.alarms, r.alarms, RestComplete);
  }

  /** A reset during the auto-start delay does not cancel the pending start:
      the timer runs again once the delay expires. */
  lemma ResetDuringDelayStillAutoStarts(s: World, t1: int, t2: int)
    requires s.pendingAutoStarts > 0
    ensures Run(s, [ResetClicked(t1), AutoStartFired(t2)]).timer.isRunning
  {
    var afterReset := Step(s, ResetClicked(t1));
    assert Run(s, [ResetClicked(t1), AutoStartFired(t2)])
        == Run(afterReset, [AutoStartFired(t2)]);
    assert Run(afterReset, [AutoStartFired(t2)]) == Run(Step(afterReset, AutoStartFired(t2)), []);
  }

  /** A completed work phase schedules an auto-start, and a reset during the
      delay does not cancel it: once it fires, the timer runs the break. */
  lemma CompletionThenResetStillAutoStarts(s: World, t0: int, t1: int, t2: int)
    requires Counting(s.timer) && s.timer.phase == Work && s.timer.deadline.value <= t0
    ensures Step(s, TickFired(t0)).pendingAutoStarts == s.pendingAutoStarts + 1
    ensures Run(s, [TickFired(t0), ResetClicked(t1), AutoStartFired(t2)]).timer.isRunning
  {
    var done := Step(s, TickFired(t0));
    assert [TickFired(t0), ResetClicked(t1), AutoStartFired(t2)][1..]
        == [ResetClicked(t1), AutoStartFired(t2)];
    ResetDuringDelayStillAutoStarts(done, t1, t2);
  }
}
